=== FILE: README.md ===
# SickleCare chatbot core in Dafny

SickleCare is a WhatsApp chatbot for people affected by sickle cell disease.
This project models the parts of it that decide what happens on each turn.
Each operation is a pure function over immutable data, and its contract is
proved.

- **The webhook turn** (`whatsapp_webhook`, module `Views`). The sender is
  read from the `From` field with the `whatsapp:` prefix removed. Their
  profile is fetched or created, then the turn passes the onboarding gate in
  order: registered, then name, then role. After that come the `menu`
  command and the `1`/`2`/`3` shortcuts, then the crisis keyword scan
  (`detect_crisis`), then the assistant fallback. Every POST gets exactly
  one TwiML message body, and only the sender's profile row is written.
- **The reminder dialogue** (`handle_reminder_flow`, module `Tasks`). It is
  a three-state machine on `pending_action`. The scratch text is carried in
  `temp_reminder_text`. The time is checked the way CPython's
  `strptime("%H:%M")` checks it (module `TimeOfDay`).
- **The minute sweep** (`send_due_reminders`, module `Scheduler`). It
  selects the reminders whose stored time equals the zero-padded clock,
  that are recurring, and that were created no later than now. It attempts
  one send for each, in order.
- **The resource sub-menu** (`resource_map`, `handle_resource_menu`, module
  `Handler`). A digit picks a topic. The reply lists the linked results,
  and one media send is made for each result that has a file.
- **The history-aware assistant call** (`get_ai_response(user,
  user_input)`, module `Utils`). It covers:
  - which of the user's past rows go into the request: at most five, the
    most recent, oldest first;
  - the role each row is sent under;
  - the two rows written back after a successful call.

The support modules are:

- `PyStr`: the Python string semantics the code relies on. This covers
  truthiness of nullable fields, `strip()` over the full Unicode whitespace
  set, ASCII `lower()` and `title()`, the `in` substring test,
  `replace(old, "")`, and the f-string rendering of `None`.
- `Seqs`: the order-preserving filter behind every ORM `filter` call.
- `Models`: the records.
- `Wrappers`: `Option`.

Outside effects are parameters. The assistant endpoint is a function from
the request messages to an optional reply (`Utils.Assistant`). The WhatsApp
send is a function to a success flag (`Scheduler.SendOracle`), and the resource
query is a function from keyword and language to results (`Handler.Lookup`).
The clock and `now` are plain values. The profile table is a map keyed by
phone number. The reminder and chat-history tables are sequences in table
order.

What the code does, and does not do, on a few points worth knowing:

- `whatsapp_webhook` in `chatbot/views.py` calls neither
  `handle_reminder_flow` nor `handle_resource_menu`.
- `whatsapp_webhook` never reads `pending_action`, so a pending reminder
  dialogue has no effect on the menu commands.
- The assistant call of `whatsapp_webhook` is `get_ai_response(user_input)`
  of `chatbot/views.py`, which sends only the system prompt and the message.
- In `chatbot/tasks.py`, the first step of `handle_reminder_flow` sets
  `pending_action` and leaves `temp_reminder_text` as it was.
- `handle_reminder_flow` returns "not handled" for an unrecognised
  `pending_action` and leaves the action as it was.
- When the time does not parse, `handle_reminder_flow` clears both
  dialogue fields and creates no reminder.

`chatbot/models.py` declares neither `pending_action`, `temp_reminder_text`
nor `preferred_language` on `UserProfile`. It has no `Reminder` model, and
no `ChatHistory` model either, although `chatbot/utils.py:3` imports one.
The model gives the profile these three fields, all nullable. A chat
history row has the `message` and `sender` the code writes and reads, and
an integer `timestamp`, which the code orders by; its owner is the user's
phone number. It also
stores a reminder's time as the text that `strptime` accepted, and the
sweep compares that text with the formatted clock; "## Left out" says
which lemmas rest on this.

## Model

| member | source | states |
|---|---|---|
| Views.ContainsAny | chatbot/views.py:45 | `any(word in text ...)` holds exactly when some word of the list is a substring of the text |
| Views.DetectCrisisIffKeyword | chatbot/views.py:39-45 | `DetectCrisis` (`detect_crisis`): a message is a crisis exactly when one of the six keywords occurs at some position of its lower-cased text (both directions) |
| Views.DetectCrisisIgnoresCase | chatbot/views.py:45 | a message and its lower-cased form get the same crisis verdict |
| Views.FallbackRequestHasNoHistory | chatbot/views.py:25-28 | the webhook's assistant request is the system prompt and the user text, which is the history-aware request with an empty window |
| Views.FallbackReply | chatbot/views.py:9-36 | the webhook's own assistant call answers exactly as the history-aware `get_ai_response(user, user_input)` answers a user who has no row in the history table, whatever rows other users have, for any time: the fixed "AI service unavailable" text without a key or on failure, else the stripped answer |
| Views.Route | chatbot/views.py:59-115 | the menu, shortcut, crisis and assistant branches are reached only by onboarded users; the crisis alert is chosen exactly when the user is onboarded, the text is not a command and it holds a keyword; the assistant is chosen exactly when there is no keyword |
| Views.Step | chatbot/views.py:59-115 | first contact only sets `registered` and answers the welcome; with no name, the text becomes the name; with no role, the lower-cased text is stored exactly when it is patient, caregiver or donor, else the retry prompt is sent; an onboarded profile is never changed; registered, name and role are never undone; no other field changes |
| Views.StepStoresKnownRole | chatbot/views.py:71-78 | a stored role is always one of the three roles in lower case, and a turn preserves that |
| Views.OnboardedCommandReplies | chatbot/views.py:81-100 | once onboarded, `menu` in any case gives the menu, then exactly `1`, `2`, `3` give the info, resources and crisis-guide texts, even when the text holds a crisis keyword |
| Views.OnboardedScanReplies | chatbot/views.py:101-115 | once onboarded, a non-command text gets the crisis alert when it holds a keyword and the assistant reply otherwise |
| Views.OnboardingDialogue | chatbot/views.py:59-78 | three turns from an unknown number give the welcome, the role prompt with the name, and the completion message, and leave a registered profile with that name and the lower-cased role |
| Views.SenderOfWhatsAppAddress | chatbot/views.py:52 | `Sender`: removing `whatsapp:` from `whatsapp:<phone>` gives back the phone |
| Views.Save | chatbot/views.py:61-62 | saving writes the sender's row and no other; saving an unchanged row leaves the table as it was |
| Views.Webhook | chatbot/views.py:49-119 | a non-POST request gets plain "OK" and changes nothing; a POST gets one TwiML body, which is the reply of one turn on the sender's fetched or created profile for the stripped `Body` text, and that turn's profile is what is saved for the sender (`Sender` drops the `whatsapp:` prefix from `From`, `IncomingText` strips `Body`); only the sender's row is written, it is created when missing, and other rows are unchanged; an onboarded sender's turn leaves the table as it was |
| Models.GetOrNew | chatbot/views.py:56 | `get_or_create` gives the stored profile of the phone, or a new one when there is none; in a table whose rows are keyed by their own phone, the profile it gives carries the phone it was asked for |
| Views.WebhookKeepsKeyedByPhone | chatbot/models.py:4 | every turn keeps each row stored under its own phone number, as the unique `phone_number` column requires |
| Views.FirstContactWelcomed | chatbot/views.py:56-60 | a phone the table does not know gets an unregistered row, so its first message, whatever it says, takes the welcome branch |
| Tasks.StageOf | chatbot/tasks.py:9-22 | the dialogue is idle exactly when `pending_action` is falsy, and awaits the text or the time exactly when it holds the matching tag |
| Tasks.ReminderStep | chatbot/tasks.py:7-40 | idle: ask for the text; awaiting text: keep it and ask for the time; awaiting time: clear both fields and append one recurring reminder exactly when `strptime` accepts the time, else only the error; any other action: not handled, nothing changes. A handled call sends exactly one body, reminders are only appended, and only the two dialogue fields of the profile change |
| Tasks.ReminderStepKeepsStore | chatbot/tasks.py:22-31 | every reminder the dialogue stores is recurring and carries an accepted time, and a call preserves that |
| Tasks.ReminderDialogue | chatbot/tasks.py:9-38 | three calls from idle create exactly one recurring reminder with the given text and time, and leave nothing pending |
| TimeOfDay.ParseTime | chatbot/tasks.py:24 | a parsed time is a valid clock, hour below 24 and minute below 60 |
| TimeOfDay.ParseTimeIffAccepted | chatbot/tasks.py:24 | the parser succeeds exactly on strings that split at a colon into a one- or two-digit hour in range and a one- or two-digit minute in range |
| TimeOfDay.Pad2 | chatbot/scheduler.py:11 | two-digit zero padding gives two digits whose value is the number |
| TimeOfDay.Format | chatbot/scheduler.py:11 | `strftime("%H:%M")` is five characters with the colon in the middle |
| TimeOfDay.ParseFormat | chatbot/scheduler.py:11 | parsing the formatted clock gives back the clock |
| TimeOfDay.FormatParse | chatbot/tasks.py:24 | an accepted string has three to five characters, and a five-character one is exactly the formatting of its parse |
| Scheduler.SelectDue | chatbot/scheduler.py:14-18 | a reminder is selected exactly when its time equals the formatted clock, it is recurring and it was created no later than now; each due reminder is selected as many times as it is stored, and nothing else is selected |
| Scheduler.SendDueReminders | chatbot/scheduler.py:10-26 | one attempt per selected reminder, in selection order, to the owner with the body "⏰ Reminder: " followed by the message, printed as "None" when there is none (`Attempt`, `ReminderBody`, `Show`); an attempt's outcome is the send's outcome, and a failed send does not stop the ones after it |
| Scheduler.SendEach | chatbot/scheduler.py:20-26 | the `for` loop: one attempt per reminder of the selection, in order, each to its owner with its body, and each attempt's outcome is its own send's, since a failed send is caught and the loop goes on |
| Scheduler.SelectionIgnoresNotDue | chatbot/scheduler.py:14-18 | reminders that are not due, added before or after the table, do not change the selection |
| Scheduler.UnpaddedTimeNeverDue | chatbot/scheduler.py:11-15 | an accepted time shorter than five characters (such as `8:05`) never equals the sweep's clock string; a five-character one matches exactly the clock it parses to |
| Scheduler.CreatedReminderFiresAt | chatbot/scheduler.py:14-18 | a reminder created by the dialogue is in the table, and is selected exactly when its time is padded, it parses to the sweep's clock, and it was created no later than now |
| Scheduler.TakeMedicationExample | chatbot/scheduler.py:20-23 | "Take medication" at "08:00" is selected by the 08:00 sweep with a body naming it, and not by the 08:01 sweep |
| Handler.ResourceMapKeys | chatbot/handler.py:6-13 | the menu answers exactly the digits 1 to 6, and its topics are the six keywords |
| Handler.LinkEntries | chatbot/handler.py:30-32 | one link entry per result with a link, in result order, each naming that result |
| Handler.MediaSends | chatbot/handler.py:34-35 | one media send to the phone per result with a file, in result order, each with that file |
| Handler.HandleResourceMenu | chatbot/handler.py:15-38 | not handled exactly when the text is not a menu digit; the lookup asks for the profile's preferred language, or "English" without a profile (`Language`); with no results, the single "no resources" body; otherwise the header, the link entries and the footer, plus the media sends |
| Handler.TopicTitles | chatbot/handler.py:25 | each topic is shown with its first letter capitalised |
| Handler.ResultsListing | chatbot/handler.py:28-37 | with results, the reply has two bodies plus one per linked result, and there is one media send per result with a file, all to the phone |
| Utils.RoleOf | chatbot/utils.py:23 | a row is sent as "user" exactly when its sender is "user", and as "assistant" otherwise |
| Utils.SortByTimeSorts | chatbot/utils.py:16 | ordering by timestamp gives a time-ordered permutation of the rows |
| Utils.RecentWindow | chatbot/utils.py:16 | the window holds five rows, or all of them when there are fewer |
| Utils.RecentWindowIsNewest | chatbot/utils.py:16 | the window is time-ordered and drawn from the rows without repetition; no row left out is later than a row taken, and every copy of a row later than a taken one is taken, so duplicate newest rows are never dropped in favour of older ones |
| Utils.ContextMessages | chatbot/utils.py:18-27 | the request is the system prompt, then one entry per window row in window order, then the current input as "user" |
| Utils.BuildContext | chatbot/utils.py:15-27 | the request has two to seven entries, starting with the system prompt and ending with the input |
| Utils.ContextFromOwnRows | chatbot/utils.py:16-24 | `OwnRows` is the `filter(user=user)` query; every history entry of the request comes from a row of the same user, under the role its sender maps to |
| Utils.GetAiResponse | chatbot/utils.py:6-46 | without a key, or when the call fails, the fixed fallback and no history change; otherwise the stripped answer, and the input (as "user") and the answer (as "bot") appended to the history in that order; the history is only ever extended |
| Utils.NextContextEndsWithExchange | chatbot/utils.py:16-40 | after a question and answer stamped no earlier than any stored row are appended, the same user's next request carries them last before the new input, as "user" then "assistant" |
| Utils.ExchangeFeedsNextRequest | chatbot/utils.py:36-40 | after a successful call, the same user's next request ends with that question and its stripped answer |
| Utils.OtherHistoriesUnchanged | chatbot/utils.py:39-40 | a call writes only the caller's rows, so every other user's history is unchanged |
| PyStr.Strip | chatbot/views.py:51 | `strip()`, as `IncomingText` applies it to `Body`, gives a text that sits in the input with only whitespace around it, and that neither starts nor ends with whitespace |
| PyStr.StripIdempotent | chatbot/views.py:51 | stripping twice is stripping once |
| PyStr.Lower | chatbot/views.py:72 | `lower()` keeps the length and maps every ASCII capital to its small letter, leaving all other characters alone |
| PyStr.Title | chatbot/handler.py:25 | `title()` capitalises a letter that does not follow a letter, lower-cases one that does, and leaves other characters alone |
| PyStr.ContainsIffOccurs | chatbot/views.py:45 | the `in` test holds exactly when the word occurs at some position |
| PyStr.RemoveAll | chatbot/views.py:52 | `replace(pat, "")` never lengthens the text; a text holding the pattern loses at least one whole copy of it; a text without the pattern comes back unchanged; and every character that the pattern does not hold is kept as often as it occurs |
| PyStr.RemoveAllPrefix | chatbot/views.py:52 | a leading copy of the pattern is removed, and a remainder free of the pattern is kept as it is |

## Left out

- HTTP, TwiML rendering, CSRF and `HttpResponse` are left out. The webhook returns the reply bodies, or "OK", as data.
- The DeepSeek request, `raise_for_status` and the JSON lookup are left out. They are the `Assistant` oracle, which returns None for any failure caught by the code's `except`.
- `send_whatsapp_media` is not defined in `chatbot/utils.py`, so the import at `chatbot/handler.py:4` would fail, and `chatbot/handler.py:34-35` calls it outside any `try`. The model assumes it exists and never raises.
- `send_whatsapp_message`, `send_whatsapp_media` and the Twilio client are oracles. The send outcome is recorded in the sweep's log, and the media sends are returned as data. The sweep's console prints are left out.
- `start_scheduler`, APScheduler and the startup hook in `chatbot/apps.py` are left out. They are timer and thread plumbing, and `send_due_reminders` is modelled as one call with the clock and `now` as parameters.
- `get_resources_by_keyword` in `chatbot/resources.py` is the `Lookup` oracle. Its `icontains` and language filter are not modelled.
- `last_interaction` (`auto_now`) is left out. So are database write failures during `save()` and `create()`, and the exception path they would take.
- Scheduler.SelectDue: the result is in table order. The database's row order for the sweep is unspecified.
- Utils.RecentWindow: when timestamps tie, table order decides, and the database's order for ties is unspecified. `GetAiResponse` gives both appended rows the same `now`.
- Utils.NextContextEndsWithExchange and Utils.ExchangeFeedsNextRequest: the question comes before the answer only because tied timestamps keep table order in ascending sort. The source reverses a descending query (`chatbot/utils.py:16`), so if the database returned tied rows in table order for that query, the answer would come first.
- PyStr.Lower: ASCII letters only. Python's full Unicode case mapping is not modelled.
- PyStr.Title: ASCII letters only.
- TimeOfDay.ParseTimeIffAccepted: ASCII digits only. CPython's `\d` also accepts other Unicode decimal digits.
- The code has no crisis escalation, location or emergency-contact steps, no `reset` command and no reply chunking, so the model has none either.
- A reminder has only the fields the code reads or writes: its user, message, time, recurring flag and creation instant (`chatbot/tasks.py:25-30`, `chatbot/scheduler.py:14-23`).
- Scheduler.UnpaddedTimeNeverDue: holds only if `Reminder.time` is a text column that keeps the string `strptime` accepted. The `Reminder` model is not part of this model's source; if `time` were a `TimeField`, `8:05` would be stored as 08:05 and would fire.
- Scheduler.CreatedReminderFiresAt: rests on the same text-column assumption; under a `TimeField`, an unpadded accepted time would fire at the clock it parses to.

=== FILE: handler.dfy ===
/** The resource sub-menu (`handle_resource_menu`): a digit picks a topic
    keyword, the resources found for it are listed as links in the reply
    and their files are sent as media. The resource query is an oracle of
    type `Lookup`. */
module Handler {
  import opened Wrappers
  import opened PyStr
  import opened Models
  import opened Seqs

  /** `resource_map`: menu digit to topic keyword. */
  const ResourceMap: map<string, string> := map[
    "1" := "hydration",
    "2" := "pain",
    "3" := "medication",
    "4" := "emergency",
    "5" := "mental",
    "6" := "caregiver"]

  /** `get_resources_by_keyword(keyword, language)`. */
  type Lookup = (string, Option<string>) -> seq<Resource>

  /** One `send_whatsapp_media(phone, url)` call. */
  datatype MediaSend = MediaSend(to: string, url: string)

  /** The message bodies added to the reply and the media sent. */
  datatype ResourceReply = ResourceReply(bodies: seq<string>, media: seq<MediaSend>)

  /** The language the lookup is asked for. */
  function Language(profile: Option<Profile>): (lang: Option<string>)
    ensures profile.None? ==> lang == Some("English")
    ensures profile.Some? ==> lang == profile.value.preferredLanguage
  {
    match profile
    case None => Some("English")
    case Some(p) => p.preferredLanguage
  }

  function NoResourcesReply(keyword: string): string {
    "⚠️ Sorry, no resources available for *" + Title(keyword) + "* yet."
  }

  function Header(keyword: string): string {
    "📎 *Resources for " + Title(keyword) + "*:\n"
  }

  const Footer: string := "\n✅ Reply *menu* to go back."

  predicate HasLink(r: Resource) { Truthy(r.link) }
  predicate HasFile(r: Resource) { Truthy(r.file) }

  function LinkEntry(r: Resource): string
    requires HasLink(r)
  {
    "\n🔗 *" + r.title + "*\n" + r.link.value
  }

  /** One link entry per result that has a link, in result order. */
  function LinkEntries(rs: seq<Resource>): (es: seq<string>)
    ensures var linked := Filter(HasLink, rs);
      |es| == |linked| && forall i :: 0 <= i < |es| ==> es[i] == LinkEntry(linked[i])
    decreases |rs|
  {
    if rs == [] then []
    else if HasLink(rs[0]) then [LinkEntry(rs[0])] + LinkEntries(rs[1..])
    else LinkEntries(rs[1..])
  }

  /** One media send to `phone` per result that has a file, in result order. */
  function MediaSends(phone: string, rs: seq<Resource>): (ms: seq<MediaSend>)
    ensures var filed := Filter(HasFile, rs);
      |ms| == |filed| && forall i :: 0 <= i < |ms| ==> ms[i] == MediaSend(phone, filed[i].file.value)
    decreases |rs|
  {
    if rs == [] then []
    else if HasFile(rs[0]) then [MediaSend(phone, rs[0].file.value)] + MediaSends(phone, rs[1..])
    else MediaSends(phone, rs[1..])
  }

  /** `handle_resource_menu(incoming_msg, profile, msg, response, phone)`:
      None when the message is not a menu digit; otherwise the bodies and
      media for the topic's resources in the profile's language. */
  function HandleResourceMenu(incoming: string, profile: Option<Profile>, phone: string,
                              lookup: Lookup): (r: Option<ResourceReply>)
    ensures r.None? <==> incoming !in ResourceMap
    ensures incoming in ResourceMap ==>
      var keyword := ResourceMap[incoming];
      var rs := lookup(keyword, Language(profile));
      && (rs == [] ==> r == Some(ResourceReply([NoResourcesReply(keyword)], [])))
      && (rs != [] ==>
            && r.value.bodies == [Header(keyword)] + LinkEntries(rs) + [Footer]
            && r.value.media == MediaSends(phone, rs))
  {
    if incoming !in ResourceMap then None
    else
      var keyword := ResourceMap[incoming];
      var rs := lookup(keyword, Language(profile));
      if rs == [] then Some(ResourceReply([NoResourcesReply(keyword)], []))
      else Some(ResourceReply([Header(keyword)] + LinkEntries(rs) + [Footer], MediaSends(phone, rs)))
  }

  /** The menu answers exactly the digits 1 to 6, each with its topic. */
  lemma ResourceMapKeys(d: string)
    ensures d in ResourceMap <==> d in ["1", "2", "3", "4", "5", "6"]
    ensures ResourceMap.Values == {"hydration", "pain", "medication", "emergency", "mental", "caregiver"}
  {
    assert ResourceMap["1"] == "hydration" && ResourceMap["2"] == "pain";
    assert ResourceMap["3"] == "medication" && ResourceMap["4"] == "emergency";
    assert ResourceMap["5"] == "mental" && ResourceMap["6"] == "caregiver";
  }

  /** Each topic is shown with its first letter capitalised. */
  lemma TopicTitles(d: string)
    requires d in ResourceMap
    ensures var k := ResourceMap[d]; Title(k) == [UpperChar(k[0])] + k[1..]
  {
    var k := ResourceMap[d];
    assert k in ["hydration", "pain", "medication", "emergency", "mental", "caregiver"];
    TitleOfLowerWord(k);
  }

  /** For a topic with results, the reply is the header, one entry per
      linked result and the footer; there is one media send per result
      with a file, and nothing else is sent. */
  lemma ResultsListing(incoming: string, profile: Option<Profile>, phone: string, lookup: Lookup)
    requires incoming in ResourceMap
    requires lookup(ResourceMap[incoming], Language(profile)) != []
    ensures var rs := lookup(ResourceMap[incoming], Language(profile));
      var r := HandleResourceMenu(incoming, profile, phone, lookup).value;
      && |r.bodies| == 2 + |Filter(HasLink, rs)|
      && |r.media| == |Filter(HasFile, rs)|
      && (forall i :: 0 <= i < |r.media| ==> r.media[i].to == phone)
  {
  }
}

=== FILE: models.dfy ===
/** The stored records the chatbot reads and writes. Fields the code uses
    but the model declarations do not show (`pending_action`,
    `temp_reminder_text`, `preferred_language`, the `Reminder` and
    `ChatHistory` tables, `Resource.title/link/file`) are plain fields here. */
module Models {
  import opened Wrappers

  /** One `UserProfile` row, keyed by its phone number. */
  datatype Profile = Profile(
    phone: string,
    name: Option<string>,
    role: Option<string>,
    registered: bool,
    pendingAction: Option<string>,
    tempReminderText: Option<string>,
    preferredLanguage: Option<string>)

  /** The row `get_or_create` makes for an unknown phone number: nothing
      filled in and not registered. */
  function NewProfile(phone: string): (p: Profile)
    ensures p.phone == phone && !p.registered
    ensures p.name.None? && p.role.None? && p.pendingAction.None?
    ensures p.tempReminderText.None? && p.preferredLanguage.None?
  {
    Profile(phone, None, None, false, None, None, None)
  }

  /** The profile table: phone number to row. */
  type ProfileStore = map<string, Profile>

  /** Every row is stored under its own phone number, as the unique
      `phone_number` column keys it. */
  predicate KeyedByPhone(store: ProfileStore) {
    forall k :: k in store ==> store[k].phone == k
  }

  /** `get_or_create(phone_number=phone)` without the write: the stored row,
      or a fresh one; in a table keyed by phone it is the row of `phone`. */
  function GetOrNew(store: ProfileStore, phone: string): (p: Profile)
    ensures phone in store ==> p == store[phone]
    ensures phone !in store ==> p == NewProfile(phone)
    ensures KeyedByPhone(store) ==> p.phone == phone
  {
    if phone in store then store[phone] else NewProfile(phone)
  }

  /** One `Reminder` row; `owner` is the owning user's phone number and
      `createdAt` the creation instant. */
  datatype Reminder = Reminder(
    owner: string,
    message: Option<string>,
    time: string,
    recurring: bool,
    createdAt: int)

  /** One `ChatHistory` row. */
  datatype ChatRow = ChatRow(
    owner: string,
    message: string,
    sender: string,
    timestamp: int)

  /** One `Resource` row as the resource menu reads it; `file` is the URL
      of the attached file, if any. */
  datatype Resource = Resource(
    title: string,
    link: Option<string>,
    file: Option<string>)
}

=== FILE: pystr.dfy ===
/** The few Python `str` operations the chatbot relies on, over `seq<char>`:
    truthiness, `strip()`, `lower()`, `title()`, `in` (substring test),
    `replace(old, "")` and f-string formatting of an optional value. */
module PyStr {
  import opened Wrappers

  /** Python truthiness of a nullable text field: `None` and `""` are false. */
  predicate Truthy(o: Option<string>) {
    o.Some? && o.value != ""
  }

  /** What an f-string prints for a nullable text value. */
  function Show(o: Option<string>): (r: string)
    ensures o.Some? ==> r == o.value
    ensures o.None? ==> r == "None"
  {
    match o
    case Some(v) => v
    case None => "None"
  }

  // ---------------------------------------------------------------------
  // strip()

  /** Python's `str.isspace()` for one character (the full Unicode set). */
  predicate IsSpace(c: char) {
    || c == ' '
    || ('\t' <= c <= '\r')
    || ('\U{1C}' <= c <= '\U{1F}')
    || c == '\U{85}'
    || c == '\U{A0}'
    || c == '\U{1680}'
    || ('\U{2000}' <= c <= '\U{200A}')
    || c == '\U{2028}'
    || c == '\U{2029}'
    || c == '\U{202F}'
    || c == '\U{205F}'
    || c == '\U{3000}'
  }

  /** The end of the whitespace run of `s` starting at `from`. */
  function SkipSpaces(s: string, from: nat): (n: nat)
    requires from <= |s|
    ensures from <= n <= |s|
    ensures forall k :: from <= k < n ==> IsSpace(s[k])
    ensures n < |s| ==> !IsSpace(s[n])
    decreases |s| - from
  {
    if from < |s| && IsSpace(s[from]) then SkipSpaces(s, from + 1) else from
  }

  /** The start of the whitespace run of `s` ending at `hi`, not going
      below `lo`. */
  function SkipSpacesBack(s: string, lo: nat, hi: nat): (n: nat)
    requires lo <= hi <= |s|
    ensures lo <= n <= hi
    ensures forall k :: n <= k < hi ==> IsSpace(s[k])
    ensures n > lo ==> !IsSpace(s[n - 1])
    decreases hi - lo
  {
    if lo < hi && IsSpace(s[hi - 1]) then SkipSpacesBack(s, lo, hi - 1) else hi
  }

  /** `s` is `r` at position `i`, surrounded by whitespace only. */
  ghost predicate PaddedAt(s: string, r: string, i: int) {
    && 0 <= i <= |s| - |r|
    && s[i..i + |r|] == r
    && (forall k :: 0 <= k < i ==> IsSpace(s[k]))
    && (forall k :: i + |r| <= k < |s| ==> IsSpace(s[k]))
  }

  /** `s` is `r` surrounded by whitespace only. */
  ghost predicate IsPaddingOf(s: string, r: string) {
    exists i :: PaddedAt(s, r, i)
  }

  /** Python's `s.strip()`: skip whitespace from the front, then from the
      back down to where the front skip stopped. */
  function Strip(s: string): (r: string)
    ensures IsPaddingOf(s, r)
    ensures r == [] || (!IsSpace(r[0]) && !IsSpace(r[|r| - 1]))
  {
    var a := SkipSpaces(s, 0);
    var b := SkipSpacesBack(s, a, |s|);
    assert PaddedAt(s, s[a..b], a);
    s[a..b]
  }

  /** Stripping is idempotent, and leaves text without surrounding
      whitespace alone. */
  lemma StripIdempotent(s: string)
    ensures Strip(Strip(s)) == Strip(s)
  {
    var r := Strip(s);
    assert SkipSpaces(r, 0) == 0;
    assert SkipSpacesBack(r, 0, |r|) == |r|;
    assert r[0..|r|] == r;
  }

  // ---------------------------------------------------------------------
  // lower() and title()

  predicate IsUpper(c: char) { 'A' <= c <= 'Z' }
  predicate IsLower(c: char) { 'a' <= c <= 'z' }
  predicate IsLetter(c: char) { IsUpper(c) || IsLower(c) }

  function LowerChar(c: char): (d: char)
    ensures IsUpper(c) ==> d as int == c as int + 32
    ensures !IsUpper(c) ==> d == c
  {
    if IsUpper(c) then (c as int + 32) as char else c
  }

  function UpperChar(c: char): (d: char)
    ensures IsLower(c) ==> d as int == c as int - 32
    ensures !IsLower(c) ==> d == c
  {
    if IsLower(c) then (c as int - 32) as char else c
  }

  /** Python's `s.lower()` on ASCII letters: same length, every character
      mapped on its own. */
  function Lower(s: string): (r: string)
    ensures |r| == |s|
    ensures forall i :: 0 <= i < |s| ==> r[i] == LowerChar(s[i])
    decreases |s|
  {
    if s == [] then [] else [LowerChar(s[0])] + Lower(s[1..])
  }

  /** Lowering twice is lowering once. */
  lemma LowerIdempotent(s: string)
    ensures Lower(Lower(s)) == Lower(s)
  {
  }

  /** `title()` after a character whose cased-ness is `afterLetter`. */
  function TitleFrom(s: string, afterLetter: bool): (r: string)
    ensures |r| == |s|
    ensures |s| > 0 ==> r[0] == (if afterLetter then LowerChar(s[0]) else UpperChar(s[0]))
    ensures forall i :: 0 < i < |s| ==>
      r[i] == (if IsLetter(s[i - 1]) then LowerChar(s[i]) else UpperChar(s[i]))
    decreases |s|
  {
    if s == [] then []
    else
      var c := if afterLetter then LowerChar(s[0]) else UpperChar(s[0]);
      [c] + TitleFrom(s[1..], IsLetter(s[0]))
  }

  /** Python's `s.title()` on ASCII: a letter is upper-cased when it starts a
      run of letters and lower-cased otherwise. */
  function Title(s: string): (r: string)
    ensures |r| == |s|
    ensures |s| > 0 ==> r[0] == UpperChar(s[0])
    ensures forall i :: 0 < i < |s| ==>
      r[i] == (if IsLetter(s[i - 1]) then LowerChar(s[i]) else UpperChar(s[i]))
  {
    TitleFrom(s, false)
  }

  /** On a single lower-case word, `title()` capitalises the first letter
      and changes nothing else. */
  lemma TitleOfLowerWord(w: string)
    requires |w| > 0
    requires forall i :: 0 <= i < |w| ==> IsLower(w[i])
    ensures Title(w) == [UpperChar(w[0])] + w[1..]
  {
    var t := Title(w);
    forall i | 0 < i < |w|
      ensures t[i] == w[i]
    {
      assert IsLetter(w[i - 1]);
    }
  }

  // ---------------------------------------------------------------------
  // substring test and removal

  predicate StartsWith(s: string, p: string) {
    |p| <= |s| && s[..|p|] == p
  }

  /** `needle` occurs in `hay` at position `i`. */
  ghost predicate OccursAt(hay: string, needle: string, i: int) {
    0 <= i && i + |needle| <= |hay| && hay[i..i + |needle|] == needle
  }

  /** Python's `needle in hay`. */
  function Contains(hay: string, needle: string): bool
    decreases |hay|
  {
    StartsWith(hay, needle) || (hay != [] && Contains(hay[1..], needle))
  }

  /** The scan agrees with the definition of a substring occurrence. */
  lemma {:induction false} ContainsIffOccurs(hay: string, needle: string)
    ensures Contains(hay, needle) <==> exists i :: OccursAt(hay, needle, i)
    decreases |hay|
  {
    if StartsWith(hay, needle) {
      assert OccursAt(hay, needle, 0);
    } else if hay == [] {
      assert forall i :: !OccursAt(hay, needle, i);
    } else {
      ContainsIffOccurs(hay[1..], needle);
      if Contains(hay[1..], needle) {
        var i :| OccursAt(hay[1..], needle, i);
        assert hay[1..][i..i + |needle|] == hay[i + 1..i + 1 + |needle|];
        assert OccursAt(hay, needle, i + 1);
      } else {
        forall i | OccursAt(hay, needle, i)
          ensures false
        {
          assert i != 0;
          assert hay[1..][i - 1..i - 1 + |needle|] == hay[i..i + |needle|];
          assert OccursAt(hay[1..], needle, i - 1);
        }
      }
    }
  }

  /** Python's `s.replace(pat, "")`: removes the leftmost non-overlapping
      occurrences of `pat`, scanning left to right. */
  function RemoveAll(s: string, pat: string): (r: string)
    requires pat != []
    ensures |r| <= |s|
    ensures !Contains(s, pat) ==> r == s
    // an occurrence is removed, and only whole occurrences are
    ensures Contains(s, pat) ==> |r| <= |s| - |pat|
    ensures forall c :: c !in pat ==> multiset(r)[c] == multiset(s)[c]
    decreases |s|
  {
    if s == [] then []
    else if StartsWith(s, pat) then
      var rest := RemoveAll(s[|pat|..], pat);
      RemovedPrefixKeepsOthers(s, pat);
      rest
    else
      assert s == [s[0]] + s[1..];
      [s[0]] + RemoveAll(s[1..], pat)
  }

  /** Dropping a leading `pat` keeps the count of every character that
      `pat` does not hold. */
  lemma RemovedPrefixKeepsOthers(s: string, pat: string)
    requires |pat| <= |s| && s[..|pat|] == pat
    ensures forall c :: c !in pat ==> multiset(s[|pat|..])[c] == multiset(s)[c]
  {
    assert s == pat + s[|pat|..];
    assert multiset(s) == multiset(pat) + multiset(s[|pat|..]);
  }

  /** A leading occurrence of `pat` is removed; a remainder free of `pat`
      is kept as it is. */
  lemma RemoveAllPrefix(pat: string, s: string)
    requires pat != []
    requires !Contains(s, pat)
    ensures RemoveAll(pat + s, pat) == s
  {
    assert StartsWith(pat + s, pat);
    assert (pat + s)[|pat|..] == s;
  }
}

=== FILE: scheduler.dfy ===
/** The minute sweep (`send_due_reminders`): which reminders it selects
    for a clock reading and an instant, and the one send per selected
    reminder. The WhatsApp send is an oracle whose outcome is recorded;
    a failed send is caught and the sweep goes on. */
module Scheduler {
  import opened Wrappers
  import opened PyStr
  import opened Models
  import opened TimeOfDay
  import Seqs
  import Tasks

  const ReminderPrefix: string := "⏰ Reminder: "

  /** The notification text for a reminder. */
  function ReminderBody(r: Reminder): string {
    ReminderPrefix + Show(r.message)
  }

  /** The sweep's query: the stored time is the zero-padded clock, the
      reminder is recurring, and it was created no later than `now`. */
  predicate Due(r: Reminder, clock: Clock, now: int)
    requires ValidClock(clock)
  {
    r.time == Format(clock) && r.recurring && r.createdAt <= now
  }

  /** `Reminder.objects.filter(time=..., recurring=True, created_at__lte=now)`,
      in table order. */
  function SelectDue(store: seq<Reminder>, clock: Clock, now: int): (sel: seq<Reminder>)
    requires ValidClock(clock)
    ensures |sel| <= |store|
    ensures forall i :: 0 <= i < |sel| ==> sel[i] in store
    ensures forall i :: 0 <= i < |sel| ==>
      sel[i].time == Format(clock) && sel[i].recurring && sel[i].createdAt <= now
    ensures forall i :: (0 <= i < |store| && store[i].time == Format(clock)
      && store[i].recurring && store[i].createdAt <= now) ==> store[i] in sel
    // each due row is selected as often as it is stored, and no other row
    ensures forall x :: multiset(sel)[x] == if Due(x, clock, now) then multiset(store)[x] else 0
  {
    Seqs.FilterMembers((r: Reminder) => Due(r, clock, now), store);
    Seqs.FilterCount((r: Reminder) => Due(r, clock, now), store);
    Seqs.Filter((r: Reminder) => Due(r, clock, now), store)
  }

  /** One attempted send: destination, body, and whether it went through. */
  datatype Delivery = Delivery(to: string, body: string, delivered: bool)

  /** `send_whatsapp_message(to, body)`: true when the message went out. */
  type SendOracle = (string, string) -> bool

  /** The send made for one reminder. */
  function Attempt(r: Reminder, send: SendOracle): (d: Delivery)
    ensures d.to == r.owner && d.body == ReminderBody(r)
  {
    Delivery(r.owner, ReminderBody(r), send(r.owner, ReminderBody(r)))
  }

  /** One attempt per reminder of `sel`, in order; each attempt's outcome is
      its own send's, whatever earlier sends returned. */
  method SendEach(sel: seq<Reminder>, send: SendOracle) returns (log: seq<Delivery>)
    ensures |log| == |sel|
    ensures forall i :: 0 <= i < |log| ==>
      log[i].to == sel[i].owner && log[i].body == ReminderBody(sel[i])
      && log[i].delivered == send(sel[i].owner, ReminderBody(sel[i]))
  {
    log := [];
    var i := 0;
    while i < |sel|
      invariant 0 <= i <= |sel|
      invariant |log| == i
      invariant forall j :: 0 <= j < i ==> log[j] == Attempt(sel[j], send)
    {
      log := log + [Attempt(sel[i], send)];
      i := i + 1;
    }
  }

  /** `send_due_reminders()` at clock reading `clock` and instant `now`:
      one attempt per selected reminder, in selection order, each to the
      owner with the reminder body; a failed attempt does not stop the
      ones after it. */
  method SendDueReminders(store: seq<Reminder>, clock: Clock, now: int, send: SendOracle)
    returns (log: seq<Delivery>)
    requires ValidClock(clock)
    ensures var sel := SelectDue(store, clock, now);
      && |log| == |sel|
      && forall i :: 0 <= i < |log| ==>
           log[i].to == sel[i].owner && log[i].body == ReminderBody(sel[i])
           && log[i].delivered == send(sel[i].owner, ReminderBody(sel[i]))
  {
    log := SendEach(SelectDue(store, clock, now), send);
  }

  /** Reminders that are not due do not change the selection, wherever
      they are added. */
  lemma SelectionIgnoresNotDue(store: seq<Reminder>, extra: seq<Reminder>, clock: Clock, now: int)
    requires ValidClock(clock)
    requires forall i :: 0 <= i < |extra| ==> !Due(extra[i], clock, now)
    ensures SelectDue(store + extra, clock, now) == SelectDue(store, clock, now)
    ensures SelectDue(extra + store, clock, now) == SelectDue(store, clock, now)
  {
    var keep := (r: Reminder) => Due(r, clock, now);
    Seqs.FilterConcat(keep, store, extra);
    Seqs.FilterConcat(keep, extra, store);
    Seqs.FilterNone(keep, extra);
  }

  /** A stored time that `strptime` accepts but that is not zero-padded
      (such as "8:05") never equals the sweep's clock string, so such a
      reminder never fires; a padded one fires exactly at the clock it
      parses to. */
  lemma UnpaddedTimeNeverDue(r: Reminder, clock: Clock, now: int)
    requires ValidClock(clock)
    requires AcceptedTime(r.time)
    ensures |r.time| < 5 ==> !Due(r, clock, now)
    ensures |r.time| == 5 ==> (r.time == Format(clock) <==> ParseTime(r.time) == Some(clock))
  {
    ParseTimeIffAccepted(r.time);
    FormatParse(r.time);
    ParseFormat(clock);
  }

  /** A reminder created by the dialogue with a padded time `t` is picked by
      every sweep at the clock `t` names from its creation on, and by no
      sweep at any other clock; one created with an unpadded time is never
      picked. */
  lemma CreatedReminderFiresAt(p: Profile, time: string, reminders: seq<Reminder>,
                               created: int, clock: Clock, now: int)
    requires p.pendingAction == Some(Tasks.AskTime)
    requires ValidClock(clock)
    requires AcceptedTime(time)
    ensures var store := Tasks.ReminderStep(p, time, reminders, created).reminders;
      var r := Tasks.NewReminder(p, time, created);
      && r in store
      && (r in SelectDue(store, clock, now) <==>
            |time| == 5 && ParseTime(time) == Some(clock) && created <= now)
  {
    var store := Tasks.ReminderStep(p, time, reminders, created).reminders;
    var r := Tasks.NewReminder(p, time, created);
    assert store[|reminders|] == r;
    UnpaddedTimeNeverDue(r, clock, now);
    var sel := SelectDue(store, clock, now);
    if r in sel {
      var i :| 0 <= i < |sel| && sel[i] == r;
    }
  }

  /** "Take medication" at "08:00": the sweep at 08:00 selects it and the
      notification names it; the sweep at 08:01 does not select it. */
  lemma TakeMedicationExample(p: Profile, reminders: seq<Reminder>, created: int, now: int)
    requires p.pendingAction == Some(Tasks.AskTime)
    requires p.tempReminderText == Some("Take medication")
    requires created <= now
    ensures var store := Tasks.ReminderStep(p, "08:00", reminders, created).reminders;
      var r := Tasks.NewReminder(p, "08:00", created);
      && r in SelectDue(store, Clock(8, 0), now)
      && r !in SelectDue(store, Clock(8, 1), now)
      && ReminderBody(r) == ReminderPrefix + "Take medication"
  {
    var store := Tasks.ReminderStep(p, "08:00", reminders, created).reminders;
    var r := Tasks.NewReminder(p, "08:00", created);
    assert ParseTime("08:00") == Some(Clock(8, 0)) by {
      assert SplitsAt("08:00", 2);
    }
    assert r in SelectDue(store, Clock(8, 0), now) by {
      CreatedReminderFiresAt(p, "08:00", reminders, created, Clock(8, 0), now);
    }
    assert r !in SelectDue(store, Clock(8, 1), now) by {
      CreatedReminderFiresAt(p, "08:00", reminders, created, Clock(8, 1), now);
    }
  }
}

=== FILE: seqs.dfy ===
/** Order-preserving filtering of sequences, the shape of every ORM `filter`
    and every `for ... if ...` loop of the chatbot. */
module Seqs {

  /** The elements of `s` satisfying `keep`, in their original order. */
  function Filter<T>(keep: T -> bool, s: seq<T>): (r: seq<T>)
    ensures |r| <= |s|
    ensures forall i :: 0 <= i < |r| ==> keep(r[i])
    decreases |s|
  {
    if s == [] then []
    else if keep(s[0]) then [s[0]] + Filter(keep, s[1..])
    else Filter(keep, s[1..])
  }

  /** The filtered sequence holds exactly the elements of `s` that satisfy
      `keep`: each kept element comes from `s`, and no satisfying element
      of `s` is dropped. */
  lemma {:induction false} FilterMembers<T>(keep: T -> bool, s: seq<T>)
    ensures forall i :: 0 <= i < |Filter(keep, s)| ==> Filter(keep, s)[i] in s
    ensures forall i :: 0 <= i < |s| && keep(s[i]) ==> s[i] in Filter(keep, s)
    decreases |s|
  {
    if s != [] {
      FilterMembers(keep, s[1..]);
      assert s == [s[0]] + s[1..];
      var r := Filter(keep, s);
      var rest := Filter(keep, s[1..]);
      forall i | 0 <= i < |s| && keep(s[i])
        ensures s[i] in r
      {
        if i > 0 {
          assert s[i] == s[1..][i - 1];
        }
      }
    }
  }

  /** Filtering keeps every copy of a satisfying element and no copy of
      any other: the multiplicities of the result are those of `s`,
      restricted to `keep`. */
  lemma {:induction false} FilterCount<T>(keep: T -> bool, s: seq<T>)
    ensures forall x :: multiset(Filter(keep, s))[x] == if keep(x) then multiset(s)[x] else 0
    decreases |s|
  {
    if s != [] {
      FilterCount(keep, s[1..]);
      assert s == [s[0]] + s[1..];
      assert multiset(s) == multiset{s[0]} + multiset(s[1..]);
    }
  }

  /** Filtering distributes over concatenation: the relative order of the
      kept elements is exactly their order in the input. */
  lemma {:induction false} FilterConcat<T>(keep: T -> bool, a: seq<T>, b: seq<T>)
    ensures Filter(keep, a + b) == Filter(keep, a) + Filter(keep, b)
    decreases |a|
  {
    if a == [] {
      assert a + b == b;
    } else {
      assert (a + b)[1..] == a[1..] + b;
      FilterConcat(keep, a[1..], b);
    }
  }

  /** Filtering keeps everything exactly when everything satisfies `keep`. */
  lemma {:induction false} FilterAll<T>(keep: T -> bool, s: seq<T>)
    requires forall i :: 0 <= i < |s| ==> keep(s[i])
    ensures Filter(keep, s) == s
    decreases |s|
  {
    if s != [] {
      FilterAll(keep, s[1..]);
    }
  }

  /** Filtering keeps nothing exactly when nothing satisfies `keep`. */
  lemma {:induction false} FilterNone<T>(keep: T -> bool, s: seq<T>)
    requires forall i :: 0 <= i < |s| ==> !keep(s[i])
    ensures Filter(keep, s) == []
    decreases |s|
  {
    if s != [] {
      FilterNone(keep, s[1..]);
    }
  }

  /** Appending two elements one at a time is appending the pair. */
  lemma AppendTwo<T>(s: seq<T>, x: T, y: T)
    ensures (s + [x]) + [y] == s + [x, y]
  {
  }

  /** A non-empty sequence is its front followed by its last element. */
  lemma InitLast<T>(s: seq<T>)
    requires |s| > 0
    ensures s == s[..|s| - 1] + [s[|s| - 1]]
  {
  }
}

=== FILE: tasks.dfy ===
/** The reminder-creation dialogue (`handle_reminder_flow`): a three-state
    machine on the profile's `pending_action`, carrying the reminder text in
    `temp_reminder_text` between the text turn and the time turn. */
module Tasks {
  import opened Wrappers
  import opened PyStr
  import opened Models
  import opened TimeOfDay

  const AskText: string := "ask_reminder_text"
  const AskTime: string := "ask_reminder_time"

  const TextPrompt: string := "📌 Sure! What should I remind you about?"
  const TimePrompt: string := "⏰ Great! What time? (24hr format HH:MM)"
  const InvalidTimeReply: string := "❌ Invalid time format. Use HH:MM (24hr)"

  function ConfirmReply(time: string): string {
    "✅ Daily reminder set for *" + time + "*"
  }

  /** Where the dialogue stands, read off `pending_action`. */
  datatype Stage = Idle | AwaitingText | AwaitingTime | Foreign

  function StageOf(pending: Option<string>): (s: Stage)
    ensures s == Idle <==> !Truthy(pending)
    ensures s == AwaitingText <==> pending == Some(AskText)
    ensures s == AwaitingTime <==> pending == Some(AskTime)
  {
    if !Truthy(pending) then Idle
    else if pending.value == AskText then AwaitingText
    else if pending.value == AskTime then AwaitingTime
    else Foreign
  }

  /** What one call returns: whether it handled the message, the saved
      profile, the reminder table and the message bodies it emitted. */
  datatype FlowResult = FlowResult(
    handled: bool,
    profile: Profile,
    reminders: seq<Reminder>,
    bodies: seq<string>)

  /** The reminder created from the profile's scratch text at `now`. */
  function NewReminder(p: Profile, time: string, now: int): Reminder {
    Reminder(p.phone, p.tempReminderText, time, true, now)
  }

  /** `handle_reminder_flow(user, incoming_msg, msg)` at instant `now`. */
  function ReminderStep(p: Profile, text: string, reminders: seq<Reminder>, now: int): (r: FlowResult)
    // nothing pending: start the dialogue
    ensures !Truthy(p.pendingAction) ==>
      r == FlowResult(true, p.(pendingAction := Some(AskText)), reminders, [TextPrompt])
    // waiting for the text: keep it, ask for the time
    ensures p.pendingAction == Some(AskText) ==>
      r == FlowResult(true, p.(tempReminderText := Some(text), pendingAction := Some(AskTime)),
                      reminders, [TimePrompt])
    // waiting for the time: the dialogue ends whether or not the time parses
    ensures p.pendingAction == Some(AskTime) ==>
      && r.handled
      && r.profile == p.(pendingAction := None, tempReminderText := None)
      && (AcceptedTime(text) ==>
            r.reminders == reminders + [Reminder(p.phone, p.tempReminderText, text, true, now)]
            && r.bodies == [ConfirmReply(text)])
      && (!AcceptedTime(text) ==> r.reminders == reminders && r.bodies == [InvalidTimeReply])
    // some other action pending: not handled, nothing changes
    ensures Truthy(p.pendingAction) && p.pendingAction != Some(AskText) && p.pendingAction != Some(AskTime) ==>
      r == FlowResult(false, p, reminders, [])
    // a handled step says exactly one thing; reminders are only ever appended
    ensures r.handled <==> |r.bodies| == 1
    ensures !r.handled ==> r.bodies == []
    ensures |reminders| <= |r.reminders| <= |reminders| + 1 && r.reminders[..|reminders|] == reminders
    // only the dialogue fields of the profile change
    ensures r.profile == p.(pendingAction := r.profile.pendingAction,
                            tempReminderText := r.profile.tempReminderText)
  {
    match StageOf(p.pendingAction)
    case Idle =>
      FlowResult(true, p.(pendingAction := Some(AskText)), reminders, [TextPrompt])
    case AwaitingText =>
      FlowResult(true, p.(tempReminderText := Some(text), pendingAction := Some(AskTime)),
                 reminders, [TimePrompt])
    case AwaitingTime =>
      ParseTimeIffAccepted(text);
      var cleared := p.(pendingAction := None, tempReminderText := None);
      if ParseTime(text).Some? then
        FlowResult(true, cleared, reminders + [NewReminder(p, text, now)], [ConfirmReply(text)])
      else
        FlowResult(true, cleared, reminders, [InvalidTimeReply])
    case Foreign =>
      FlowResult(false, p, reminders, [])
  }

  /** Every stored reminder made by the dialogue is recurring and carries
      a time that `strptime("%H:%M")` accepts. */
  ghost predicate WellFormedStore(reminders: seq<Reminder>) {
    forall i :: 0 <= i < |reminders| ==> reminders[i].recurring && AcceptedTime(reminders[i].time)
  }

  /** The dialogue keeps the reminder table well formed. */
  lemma ReminderStepKeepsStore(p: Profile, text: string, reminders: seq<Reminder>, now: int)
    requires WellFormedStore(reminders)
    ensures WellFormedStore(ReminderStep(p, text, reminders, now).reminders)
  {
    var r := ReminderStep(p, text, reminders, now);
    if |r.reminders| != |reminders| {
      assert r.reminders == reminders + [r.reminders[|reminders|]];
    }
  }

  /** Three calls from an idle profile create exactly one recurring
      reminder with the given text and time, and leave nothing pending. */
  lemma ReminderDialogue(p: Profile, start: string, message: string, time: string,
                         reminders: seq<Reminder>, t1: int, t2: int, t3: int)
    requires !Truthy(p.pendingAction)
    requires AcceptedTime(time)
    ensures var r1 := ReminderStep(p, start, reminders, t1);
      var r2 := ReminderStep(r1.profile, message, r1.reminders, t2);
      var r3 := ReminderStep(r2.profile, time, r2.reminders, t3);
      && r1.bodies == [TextPrompt]
      && r2.bodies == [TimePrompt]
      && r3.bodies == [ConfirmReply(time)]
      && r3.reminders == reminders + [Reminder(p.phone, Some(message), time, true, t3)]
      && r3.profile == p.(pendingAction := None, tempReminderText := None)
  {
  }
}

=== FILE: timeofday.dfy ===
/** Times of day in the `"%H:%M"` format: `strftime` always zero-pads both
    fields, while CPython's `strptime` also accepts one-digit fields. */
module TimeOfDay {
  import opened Wrappers

  datatype Clock = Clock(hour: nat, minute: nat)

  predicate ValidClock(c: Clock) {
    c.hour < 24 && c.minute < 60
  }

  predicate IsDigit(c: char) { '0' <= c <= '9' }

  function DigitValue(c: char): (n: nat)
    requires IsDigit(c)
    ensures n < 10
  {
    c as int - '0' as int
  }

  function DigitChar(n: nat): (c: char)
    requires n < 10
    ensures IsDigit(c) && DigitValue(c) == n
  {
    ('0' as int + n) as char
  }

  /** `%02d`: two decimal digits, the first one possibly `0`. */
  function Pad2(n: nat): (s: string)
    requires n < 100
    ensures |s| == 2 && IsDigit(s[0]) && IsDigit(s[1])
    ensures 10 * DigitValue(s[0]) + DigitValue(s[1]) == n
  {
    [DigitChar(n / 10), DigitChar(n % 10)]
  }

  /** `strftime("%H:%M")` of a clock reading. */
  function Format(c: Clock): (s: string)
    requires ValidClock(c)
    ensures |s| == 5 && s[2] == ':'
  {
    Pad2(c.hour) + ":" + Pad2(c.minute)
  }

  /** The value of a field of one or two decimal digits. */
  function FieldValue(f: string): nat
    requires 1 <= |f| <= 2
    requires forall i :: 0 <= i < |f| ==> IsDigit(f[i])
  {
    if |f| == 1 then DigitValue(f[0]) else 10 * DigitValue(f[0]) + DigitValue(f[1])
  }

  /** CPython's `%H` pattern `2[0-3]|[0-1]\d|\d`, matched by the whole of `h`. */
  predicate HourField(h: string) {
    || (|h| == 2 && h[0] == '2' && '0' <= h[1] <= '3')
    || (|h| == 2 && '0' <= h[0] <= '1' && IsDigit(h[1]))
    || (|h| == 1 && IsDigit(h[0]))
  }

  /** CPython's `%M` pattern `[0-5]\d|\d`, matched by the whole of `m`. */
  predicate MinuteField(m: string) {
    || (|m| == 2 && '0' <= m[0] <= '5' && IsDigit(m[1]))
    || (|m| == 1 && IsDigit(m[0]))
  }

  /** `s` is an hour field, a colon at `k`, and a minute field. */
  predicate SplitsAt(s: string, k: int) {
    0 <= k < |s| && s[k] == ':' && HourField(s[..k]) && MinuteField(s[k + 1..])
  }

  /** `datetime.strptime(s, "%H:%M")` succeeds. */
  ghost predicate AcceptedTime(s: string) {
    exists k :: SplitsAt(s, k)
  }

  /** `datetime.strptime(s, "%H:%M")`: the regex match of the hour, the
      colon and the minute, followed by the check that no data remains.
      The colon right after a one- or two-character hour decides the split. */
  function ParseTime(s: string): (r: Option<Clock>)
    ensures r.Some? ==> ValidClock(r.value)
  {
    var k := if |s| >= 2 && s[1] == ':' then 1 else 2;
    if SplitsAt(s, k) then
      Some(Clock(FieldValue(s[..k]), FieldValue(s[k + 1..])))
    else
      None
  }

  /** The parser accepts exactly the strings made of an hour field, a colon
      and a minute field. */
  lemma ParseTimeIffAccepted(s: string)
    ensures ParseTime(s).Some? <==> AcceptedTime(s)
  {
    if AcceptedTime(s) {
      var k :| SplitsAt(s, k);
      assert k == 1 || k == 2;
      if k == 2 {
        assert s[..k][1] == s[1];
      }
    }
  }

  /** Parsing a formatted clock gives the clock back. */
  lemma ParseFormat(c: Clock)
    requires ValidClock(c)
    ensures ParseTime(Format(c)) == Some(c)
  {
    var s := Format(c);
    assert s[..2] == Pad2(c.hour);
    assert s[3..] == Pad2(c.minute);
    assert SplitsAt(s, 2);
  }

  /** An accepted time has three to five characters, and a five-character
      one is exactly the formatting of the clock it parses to. */
  lemma FormatParse(s: string)
    requires ParseTime(s).Some?
    ensures |s| == 5 ==> Format(ParseTime(s).value) == s
    ensures 3 <= |s| <= 5
  {
    var c := ParseTime(s).value;
    if |s| == 5 {
      var f := Format(c);
      assert f[0] == s[0] && f[1] == s[1] && f[3] == s[3] && f[4] == s[4];
    }
  }
}

=== FILE: utils.dfy ===
/** The assistant call with chat-history context (`get_ai_response(user,
    user_input)`): which history rows go into the request, in what order and
    under which role, and which rows are written back. The HTTP request and
    its JSON decoding are an oracle of type `Assistant`. */
module Utils {
  import opened Wrappers
  import opened Models
  import opened PyStr
  import Seqs

  /** One entry of the chat-completion `messages` list. */
  datatype ChatMessage = ChatMessage(role: string, content: string)

  const SystemPrompt: string :=
    "You are SickleCare, a friendly WhatsApp assistant for sickle cell awareness."

  /** The reply given whenever the assistant cannot be reached. */
  const AiUnavailable: string := "⚠️ AI service unavailable. Please try again later."

  /** How many past history rows go into one request. */
  const ContextSize: nat := 5

  /** The chat-completion endpoint: the raw `content` of the first choice,
      or None when the request, its status check or the JSON lookup fails. */
  type Assistant = seq<ChatMessage> -> Option<string>

  /** The request role of a stored history row. */
  function RoleOf(sender: string): (role: string)
    ensures role == "user" <==> sender == "user"
    ensures role == "user" || role == "assistant"
  {
    if sender == "user" then "user" else "assistant"
  }

  // ---------------------------------------------------------------------
  // the history window

  ghost predicate SortedByTime(s: seq<ChatRow>) {
    forall i, j :: 0 <= i < j < |s| ==> s[i].timestamp <= s[j].timestamp
  }

  /** Inserts `x` after the leading rows that are not later than it. */
  function InsertByTime(x: ChatRow, s: seq<ChatRow>): (r: seq<ChatRow>)
    ensures |r| == |s| + 1
    decreases |s|
  {
    if s == [] then [x]
    else if x.timestamp < s[0].timestamp then [x] + s
    else [s[0]] + InsertByTime(x, s[1..])
  }

  /** Inserting into a time-ordered sequence keeps it ordered. */
  lemma {:induction false} InsertByTimeSorted(x: ChatRow, s: seq<ChatRow>)
    requires SortedByTime(s)
    ensures SortedByTime(InsertByTime(x, s))
    ensures |s| > 0 ==> InsertByTime(x, s)[0] == x || InsertByTime(x, s)[0] == s[0]
    decreases |s|
  {
    if s != [] && x.timestamp >= s[0].timestamp {
      InsertByTimeSorted(x, s[1..]);
    }
  }

  /** Inserting adds exactly `x`. */
  lemma {:induction false} InsertByTimePermutes(x: ChatRow, s: seq<ChatRow>)
    ensures multiset(InsertByTime(x, s)) == multiset(s) + multiset{x}
    decreases |s|
  {
    if s != [] && x.timestamp >= s[0].timestamp {
      InsertByTimePermutes(x, s[1..]);
      assert s == [s[0]] + s[1..];
    }
  }

  /** The rows ordered by timestamp, ties kept in table order (the
      database leaves their order open). */
  function SortByTime(rows: seq<ChatRow>): (r: seq<ChatRow>)
    ensures |r| == |rows|
    decreases |rows|
  {
    if rows == [] then []
    else InsertByTime(rows[|rows| - 1], SortByTime(rows[..|rows| - 1]))
  }

  /** Sorting orders the rows by timestamp and is a permutation. */
  lemma SortByTimeSorts(rows: seq<ChatRow>)
    ensures SortedByTime(SortByTime(rows))
    ensures multiset(SortByTime(rows)) == multiset(rows)
  {
    SortByTimeOrders(rows);
    SortByTimePermutes(rows);
  }

  lemma {:induction false} SortByTimeOrders(rows: seq<ChatRow>)
    ensures SortedByTime(SortByTime(rows))
    decreases |rows|
  {
    if rows != [] {
      SortByTimeOrders(rows[..|rows| - 1]);
      InsertByTimeSorted(rows[|rows| - 1], SortByTime(rows[..|rows| - 1]));
    }
  }

  lemma {:induction false} SortByTimePermutes(rows: seq<ChatRow>)
    ensures multiset(SortByTime(rows)) == multiset(rows)
    decreases |rows|
  {
    if rows != [] {
      var init := rows[..|rows| - 1];
      SortByTimePermutes(init);
      InsertByTimePermutes(rows[|rows| - 1], SortByTime(init));
      Seqs.InitLast(rows);
    }
  }

  /** `ChatHistory.objects.filter(user=user)`. */
  function OwnRows(table: seq<ChatRow>, owner: string): seq<ChatRow> {
    Seqs.Filter((row: ChatRow) => row.owner == owner, table)
  }

  /** `order_by("-timestamp")[:5][::-1]`. */
  function RecentWindow(rows: seq<ChatRow>): (w: seq<ChatRow>)
    ensures |w| == if |rows| < ContextSize then |rows| else ContextSize
  {
    Newest(SortByTime(rows))
  }

  /** The last `ContextSize` elements of `s`, or all of them if fewer. */
  function Newest(s: seq<ChatRow>): (w: seq<ChatRow>)
    ensures |w| == if |s| < ContextSize then |s| else ContextSize
    ensures w == s[|s| - |w|..]
  {
    s[if |s| < ContextSize then 0 else |s| - ContextSize..]
  }

  /** The window holds the most recent rows, oldest first: it is ordered by
      timestamp, drawn from the rows without repetition, and no row left
      out is later than a row taken. */
  lemma RecentWindowIsNewest(rows: seq<ChatRow>)
    ensures var w := RecentWindow(rows);
      && SortedByTime(w)
      && multiset(w) <= multiset(rows)
      && (forall x, y :: x in rows && y in w && y.timestamp < x.timestamp ==> x in w)
      // every copy of a row later than one taken is taken
      && forall x: ChatRow, y :: y in w && y.timestamp < x.timestamp ==>
           multiset(w)[x] == multiset(rows)[x]
  {
    var s := SortByTime(rows);
    var k := |s| - |Newest(s)|;
    SortByTimeSorts(rows);
    SuffixOfSorted(rows, s, k);
    SuffixKeepsLaterCopies(rows, s, k);
    assert RecentWindow(rows) == s[k..];
  }

  /** A suffix of a sorting of `rows` holds every copy of each row later
      than one of its own: no such copy sits before the suffix. */
  lemma SuffixKeepsLaterCopies(rows: seq<ChatRow>, s: seq<ChatRow>, k: nat)
    requires SortedByTime(s) && multiset(s) == multiset(rows)
    requires k <= |s|
    ensures forall x: ChatRow, y :: y in s[k..] && y.timestamp < x.timestamp ==>
      multiset(s[k..])[x] == multiset(rows)[x]
  {
    var w := s[k..];
    assert s == s[..k] + w;
    assert multiset(s) == multiset(s[..k]) + multiset(w);
    forall x: ChatRow, y | y in w && y.timestamp < x.timestamp
      ensures multiset(w)[x] == multiset(rows)[x]
    {
      var j :| 0 <= j < |w| && w[j] == y;
      assert s[k + j] == y;
      assert x !in s[..k] by {
        forall i | 0 <= i < k
          ensures s[..k][i] != x
        {
          assert s[i].timestamp <= s[k + j].timestamp;
        }
      }
    }
  }

  /** A suffix of a sorting of `rows` is drawn from `rows` and holds every
      row later than one of its own. */
  lemma SuffixOfSorted(rows: seq<ChatRow>, s: seq<ChatRow>, k: nat)
    requires SortedByTime(s) && multiset(s) == multiset(rows)
    requires k <= |s|
    ensures SortedByTime(s[k..])
    ensures multiset(s[k..]) <= multiset(rows)
    ensures forall x, y :: x in rows && y in s[k..] && y.timestamp < x.timestamp ==> x in s[k..]
  {
    var w := s[k..];
    assert s == s[..k] + w;
    assert multiset(s) == multiset(s[..k]) + multiset(w);
    SuffixKeepsLaterCopies(rows, s, k);
    forall x, y | x in rows && y in w && y.timestamp < x.timestamp
      ensures x in w
    {
      assert multiset(w)[x] == multiset(rows)[x];
    }
  }

  // ---------------------------------------------------------------------
  // the request

  /** A history row as a request entry. */
  function HistoryMessage(row: ChatRow): (m: ChatMessage)
    ensures m.content == row.message
    ensures m.role == "user" <==> row.sender == "user"
  {
    ChatMessage(RoleOf(row.sender), row.message)
  }

  /** The `messages` list: system prompt, the history window in order, the
      input. */
  function ContextMessages(w: seq<ChatRow>, input: string): (msgs: seq<ChatMessage>)
    ensures |msgs| == |w| + 2
    ensures msgs[0] == ChatMessage("system", SystemPrompt)
    ensures msgs[|msgs| - 1] == ChatMessage("user", input)
    ensures forall i :: 1 <= i < |msgs| - 1 ==> msgs[i] == HistoryMessage(w[i - 1])
  {
    [ChatMessage("system", SystemPrompt)]
      + seq(|w|, i requires 0 <= i < |w| => HistoryMessage(w[i]))
      + [ChatMessage("user", input)]
  }

  /** The request sent on behalf of `owner`: at most `ContextSize` past
      rows, between the system prompt and the current input. */
  function BuildContext(table: seq<ChatRow>, owner: string, input: string): (msgs: seq<ChatMessage>)
    ensures 2 <= |msgs| <= ContextSize + 2
    ensures msgs[0] == ChatMessage("system", SystemPrompt)
    ensures msgs[|msgs| - 1] == ChatMessage("user", input)
  {
    ContextMessages(RecentWindow(OwnRows(table, owner)), input)
  }

  /** Every history entry of the request comes from a row of `owner`,
      under the role its sender maps to. */
  lemma ContextFromOwnRows(table: seq<ChatRow>, owner: string, input: string)
    ensures var msgs := BuildContext(table, owner, input);
      forall i :: 1 <= i < |msgs| - 1 ==>
        exists j :: (0 <= j < |table| && table[j].owner == owner
          && msgs[i] == ChatMessage(RoleOf(table[j].sender), table[j].message))
  {
    var own := OwnRows(table, owner);
    var w := RecentWindow(own);
    var msgs := ContextMessages(w, input);
    assert multiset(w) <= multiset(own) by { RecentWindowIsNewest(own); }
    Seqs.FilterMembers((row: ChatRow) => row.owner == owner, table);
    forall i | 1 <= i < |msgs| - 1
      ensures exists j :: (0 <= j < |table| && table[j].owner == owner
        && msgs[i] == ChatMessage(RoleOf(table[j].sender), table[j].message))
    {
      var row := w[i - 1];
      assert row in own by {
        assert row in multiset(w);
      }
      var j :| 0 <= j < |table| && table[j] == row;
    }
  }

  // ---------------------------------------------------------------------
  // the call and its bookkeeping

  datatype AiResult = AiResult(reply: string, history: seq<ChatRow>)

  /** `get_ai_response(user, user_input)` for the user with phone `owner`:
      without an API key or when the call fails, the fixed fallback and no
      history change; otherwise the stripped reply, and the input and the
      reply appended to the history, in that order. */
  function GetAiResponse(apiKey: Option<string>, table: seq<ChatRow>, owner: string,
                         input: string, now: int, ask: Assistant): (r: AiResult)
    ensures !Truthy(apiKey) ==> r == AiResult(AiUnavailable, table)
    ensures Truthy(apiKey) && ask(BuildContext(table, owner, input)).None? ==>
      r == AiResult(AiUnavailable, table)
    ensures Truthy(apiKey) && ask(BuildContext(table, owner, input)).Some? ==>
      && r.reply == Strip(ask(BuildContext(table, owner, input)).value)
      && r.history == table + [ChatRow(owner, input, "user", now), ChatRow(owner, r.reply, "bot", now)]
    ensures r.history == table || (|r.history| == |table| + 2 && r.history[..|table|] == table)
  {
    if !Truthy(apiKey) then AiResult(AiUnavailable, table)
    else
      match ask(BuildContext(table, owner, input))
      case None => AiResult(AiUnavailable, table)
      case Some(raw) =>
        var reply := Strip(raw);
        AiResult(reply, table + [ChatRow(owner, input, "user", now), ChatRow(owner, reply, "bot", now)])
  }

  /** A row not earlier than everything in a time-ordered sequence is
      inserted at its end. */
  lemma {:induction false} InsertLatest(x: ChatRow, s: seq<ChatRow>)
    requires forall i :: 0 <= i < |s| ==> s[i].timestamp <= x.timestamp
    ensures InsertByTime(x, s) == s + [x]
    decreases |s|
  {
    if s != [] {
      InsertLatest(x, s[1..]);
      assert [s[0]] + (s[1..] + [x]) == s + [x];
    }
  }

  /** Sorting rows appended with the latest timestamp puts them last. */
  lemma SortAppendLatest(rows: seq<ChatRow>, x: ChatRow)
    requires forall i :: 0 <= i < |rows| ==> rows[i].timestamp <= x.timestamp
    ensures SortByTime(rows + [x]) == SortByTime(rows) + [x]
  {
    var s := SortByTime(rows);
    assert (rows + [x])[..|rows + [x]| - 1] == rows;
    SortByTimeSorts(rows);
    forall i | 0 <= i < |s|
      ensures s[i].timestamp <= x.timestamp
    {
      assert s[i] in multiset(rows);
    }
    InsertLatest(x, s);
  }

  /** Rows of `owner` appended to the table are appended to their rows. */
  lemma OwnRowsAppend(table: seq<ChatRow>, owner: string, extra: seq<ChatRow>)
    requires forall i :: 0 <= i < |extra| ==> extra[i].owner == owner
    ensures OwnRows(table + extra, owner) == OwnRows(table, owner) + extra
  {
    var keep := (row: ChatRow) => row.owner == owner;
    Seqs.FilterConcat(keep, table, extra);
    Seqs.FilterAll(keep, extra);
  }

  /** `w` ends with `u` then `b`. */
  predicate EndsWithPair(w: seq<ChatRow>, u: ChatRow, b: ChatRow) {
    |w| >= 2 && w[|w| - 2] == u && w[|w| - 1] == b
  }

  /** Two rows appended with the latest timestamps close the window. */
  lemma WindowEndsWithLatest(rows: seq<ChatRow>, u: ChatRow, b: ChatRow)
    requires forall i :: 0 <= i < |rows| ==> rows[i].timestamp <= u.timestamp
    requires u.timestamp <= b.timestamp
    ensures EndsWithPair(RecentWindow(rows + [u, b]), u, b)
  {
    var s := SortByTime(rows);
    SortAppendTwoLatest(rows, u, b);
    NewestEndsWith(s, u, b);
  }

  /** Two rows no earlier than all others, in time order, sort last. */
  lemma SortAppendTwoLatest(rows: seq<ChatRow>, u: ChatRow, b: ChatRow)
    requires forall i :: 0 <= i < |rows| ==> rows[i].timestamp <= u.timestamp
    requires u.timestamp <= b.timestamp
    ensures SortByTime(rows + [u, b]) == SortByTime(rows) + [u, b]
  {
    var ru := rows + [u];
    SortAppendLatest(rows, u);
    forall i | 0 <= i < |ru|
      ensures ru[i].timestamp <= b.timestamp
    {
      if i < |rows| {
        assert ru[i] == rows[i];
      }
    }
    var s := SortByTime(rows);
    calc {
      SortByTime(rows + [u, b]);
    == { Seqs.AppendTwo(rows, u, b); }
      SortByTime(ru + [b]);
    == { SortAppendLatest(ru, b); }
      SortByTime(ru) + [b];
    ==
      (s + [u]) + [b];
    == { Seqs.AppendTwo(s, u, b); }
      s + [u, b];
    }
  }

  /** The newest elements end with the last two. */
  lemma NewestEndsWith(s: seq<ChatRow>, u: ChatRow, b: ChatRow)
    ensures EndsWithPair(Newest(s + [u, b]), u, b)
  {
    var t := s + [u, b];
    var w := Newest(t);
    assert w[|w| - 2] == t[|t| - 2];
    assert w[|w| - 1] == t[|t| - 1];
  }

  /** After a successful exchange stamped no earlier than any stored row
      (the table as `GetAiResponse` leaves it), the next request from the
      same user carries that exchange last before the new input: the
      question as "user", the answer as "assistant". */
  lemma NextContextEndsWithExchange(table: seq<ChatRow>, owner: string, input: string,
                                    reply: string, now: int, next: string)
    requires forall i :: 0 <= i < |table| ==> table[i].timestamp <= now
    ensures EntriesBeforeInput(
      BuildContext(table + [ChatRow(owner, input, "user", now), ChatRow(owner, reply, "bot", now)],
                   owner, next),
      ChatMessage("user", input), ChatMessage("assistant", reply))
  {
    var u := ChatRow(owner, input, "user", now);
    var b := ChatRow(owner, reply, "bot", now);
    assert HistoryMessage(u) == ChatMessage("user", input);
    assert HistoryMessage(b) == ChatMessage("assistant", reply);
    OwnWindowEndsWith(table, owner, u, b);
    RequestEndsWith(table + [u, b], owner, next, u, b);
  }

  /** When a user's window ends with `u` then `b`, their request carries
      those two rows last before the input. */
  lemma RequestEndsWith(table: seq<ChatRow>, owner: string, next: string, u: ChatRow, b: ChatRow)
    requires EndsWithPair(RecentWindow(OwnRows(table, owner)), u, b)
    ensures EntriesBeforeInput(BuildContext(table, owner, next), HistoryMessage(u), HistoryMessage(b))
  {
    var w := RecentWindow(OwnRows(table, owner));
    ContextEndsWith(w, next, u, b);
  }

  /** The last two window rows are the last two entries before the input. */
  lemma ContextEndsWith(w: seq<ChatRow>, next: string, u: ChatRow, b: ChatRow)
    requires EndsWithPair(w, u, b)
    ensures EntriesBeforeInput(ContextMessages(w, next), HistoryMessage(u), HistoryMessage(b))
  {
  }

  /** The two entries just before the input are `mu` then `mb`. */
  predicate EntriesBeforeInput(msgs: seq<ChatMessage>, mu: ChatMessage, mb: ChatMessage) {
    |msgs| >= 4 && msgs[|msgs| - 3] == mu && msgs[|msgs| - 2] == mb
  }

  /** Two rows of `owner` stamped no earlier than the table end that
      user's window, in order. */
  lemma OwnWindowEndsWith(table: seq<ChatRow>, owner: string, u: ChatRow, b: ChatRow)
    requires forall i :: 0 <= i < |table| ==> table[i].timestamp <= u.timestamp
    requires u.timestamp <= b.timestamp
    requires u.owner == owner && b.owner == owner
    ensures EndsWithPair(RecentWindow(OwnRows(table + [u, b], owner)), u, b)
  {
    OwnRowsAppend(table, owner, [u, b]);
    OwnRowsNotLater(table, owner, u.timestamp);
    WindowEndsWithLatest(OwnRows(table, owner), u, b);
  }

  /** A user's rows are no later than a bound on the whole table. */
  lemma OwnRowsNotLater(table: seq<ChatRow>, owner: string, now: int)
    requires forall i :: 0 <= i < |table| ==> table[i].timestamp <= now
    ensures var own := OwnRows(table, owner);
      forall i :: 0 <= i < |own| ==> own[i].timestamp <= now
  {
    var own := OwnRows(table, owner);
    Seqs.FilterMembers((row: ChatRow) => row.owner == owner, table);
    forall i | 0 <= i < |own|
      ensures own[i].timestamp <= now
    {
      assert own[i] in table;
    }
  }

  // ---------------------------------------------------------------------
  // what a call leaves for the next one

  /** After a successful call, stamped no earlier than any stored row, the
      same user's next request carries the question and the stripped answer
      last before the new input. */
  lemma ExchangeFeedsNextRequest(apiKey: Option<string>, table: seq<ChatRow>, owner: string,
                                 input: string, now: int, ask: Assistant, next: string)
    requires Truthy(apiKey) && ask(BuildContext(table, owner, input)).Some?
    requires forall i :: 0 <= i < |table| ==> table[i].timestamp <= now
    ensures var r := GetAiResponse(apiKey, table, owner, input, now, ask);
      EntriesBeforeInput(BuildContext(r.history, owner, next),
                         ChatMessage("user", input), ChatMessage("assistant", r.reply))
  {
    var r := GetAiResponse(apiKey, table, owner, input, now, ask);
    NextContextEndsWithExchange(table, owner, input, r.reply, now, next);
  }

  /** A call writes only the caller's rows: every other user's history,
      and so every other user's next request, is unchanged. */
  lemma OtherHistoriesUnchanged(apiKey: Option<string>, table: seq<ChatRow>, owner: string,
                                input: string, now: int, ask: Assistant, other: string)
    requires other != owner
    ensures var r := GetAiResponse(apiKey, table, owner, input, now, ask);
      OwnRows(r.history, other) == OwnRows(table, other)
  {
    var r := GetAiResponse(apiKey, table, owner, input, now, ask);
    if r.history != table {
      var keep := (row: ChatRow) => row.owner == other;
      var extra := r.history[|table|..];
      assert r.history == table + extra;
      Seqs.FilterConcat(keep, table, extra);
      Seqs.FilterNone(keep, extra);
    }
  }
}

=== FILE: views.dfy ===
/** The WhatsApp webhook turn (`whatsapp_webhook`): the onboarding gate
    (registered, then name, then role), then the `menu` command and the
    `1`/`2`/`3` shortcuts, then the crisis keyword scan, then the assistant
    fallback. Every POST turn answers with exactly one message body. */
module Views {
  import opened Wrappers
  import opened PyStr
  import opened Models
  import opened Utils

  // ---------------------------------------------------------------------
  // replies

  const WelcomeReply: string :=
    "👋 Welcome to *SickleCare*! Please reply with your *name* to register."

  function RolePrompt(name: string): string {
    "Thanks " + name + "! Are you a *Patient*, *Caregiver*, or *Donor*?"
  }

  const RegisteredReply: string := "✅ Registration complete! Type *menu* to see options."
  const RoleRetryReply: string := "Please reply with one of: Patient, Caregiver, or Donor."

  const MenuReply: string :=
    "📋 *Main Menu*\n"
    + "1️⃣ Sickle Cell Info\n"
    + "2️⃣ Find Resources\n"
    + "3️⃣ Crisis Support\n\n"
    + "Type 1, 2, or 3."

  const InfoReply: string :=
    "🧬 You can ask me anything about Sickle Cell Disease.\nExample: What causes sickle cell disease?"

  const ResourcesReply: string :=
    "🏥 You can find nearby resources soon! (Feature under development)"

  const CrisisGuideReply: string :=
    "🚨 *Crisis Support Guide:*\n"
    + "1️⃣ Stay hydrated.\n"
    + "2️⃣ Use a warm compress.\n"
    + "3️⃣ Contact your doctor or go to the nearest hospital.\n\n"
    + "If severe, call emergency services immediately."

  const CrisisDetectedReply: string :=
    "🚨 *Crisis Detected!*\n"
    + "If you are in pain:\n"
    + "1️⃣ Stay hydrated.\n"
    + "2️⃣ Use a warm compress.\n"
    + "3️⃣ Contact your doctor or go to the nearest hospital.\n\n"
    + "If severe or life-threatening, call emergency services immediately."

  /** The roles a user may pick, as stored. */
  const Roles: seq<string> := ["patient", "caregiver", "donor"]

  const CrisisKeywords: seq<string> :=
    ["pain", "crisis", "emergency", "can't breathe", "severe", "hospital"]

  // ---------------------------------------------------------------------
  // crisis detection

  /** Some word of `words` is a substring of `hay`. */
  function ContainsAny(hay: string, words: seq<string>): (r: bool)
    ensures r <==> exists k :: 0 <= k < |words| && Contains(hay, words[k])
    decreases |words|
  {
    if words == [] then false
    else Contains(hay, words[0]) || ContainsAny(hay, words[1..])
  }

  /** `detect_crisis(message)`. */
  function DetectCrisis(message: string): bool {
    ContainsAny(Lower(message), CrisisKeywords)
  }

  /** A message is a crisis exactly when some crisis keyword occurs in its
      lower-cased text. */
  lemma DetectCrisisIffKeyword(message: string)
    ensures DetectCrisis(message) <==>
      exists k, i :: 0 <= k < |CrisisKeywords| && OccursAt(Lower(message), CrisisKeywords[k], i)
  {
    var m := Lower(message);
    if DetectCrisis(message) {
      var k :| 0 <= k < |CrisisKeywords| && Contains(m, CrisisKeywords[k]);
      ContainsIffOccurs(m, CrisisKeywords[k]);
      var i :| OccursAt(m, CrisisKeywords[k], i);
      assert 0 <= k < |CrisisKeywords| && OccursAt(Lower(message), CrisisKeywords[k], i);
    } else {
      forall k, i | 0 <= k < |CrisisKeywords|
        ensures !OccursAt(m, CrisisKeywords[k], i)
      {
        ContainsIffOccurs(m, CrisisKeywords[k]);
      }
    }
  }

  /** Case does not matter to the scan: a message and its lower-cased
      form are classified alike. */
  lemma DetectCrisisIgnoresCase(message: string)
    ensures DetectCrisis(Lower(message)) == DetectCrisis(message)
  {
    LowerIdempotent(message);
  }

  // ---------------------------------------------------------------------
  // the assistant fallback of the webhook

  /** The request of the webhook's own `get_ai_response(user_input)`. */
  function FallbackRequest(input: string): seq<ChatMessage> {
    [ChatMessage("system", SystemPrompt), ChatMessage("user", input)]
  }

  /** The webhook's assistant call carries no history: it is the context of
      the history-aware call with an empty window. */
  lemma FallbackRequestHasNoHistory(input: string)
    ensures FallbackRequest(input) == ContextMessages([], input)
  {
  }

  /** A user with no row in the history table, whatever other users have
      stored, gets the request of the webhook's assistant call. */
  lemma EmptyHistoryRequest(input: string)
    ensures forall table, owner :: OwnRows(table, owner) == [] ==>
      BuildContext(table, owner, input) == FallbackRequest(input)
    ensures forall owner :: BuildContext([], owner, input) == FallbackRequest(input)
  {
    FallbackRequestHasNoHistory(input);
    forall owner
      ensures BuildContext([], owner, input) == FallbackRequest(input)
    {
      assert OwnRows([], owner) == [];
    }
  }

  /** `get_ai_response(user_input)` of the webhook: the reply of the
      history-aware call for a user with no stored history, whoever the
      user is, whatever other users have stored, and whenever it is asked. */
  function FallbackReply(apiKey: Option<string>, input: string, ask: Assistant): (r: string)
    ensures forall table, owner, now :: OwnRows(table, owner) == [] ==>
      r == GetAiResponse(apiKey, table, owner, input, now, ask).reply
    ensures forall owner, now :: r == GetAiResponse(apiKey, [], owner, input, now, ask).reply
  {
    EmptyHistoryRequest(input);
    if !Truthy(apiKey) then AiUnavailable
    else
      match ask(FallbackRequest(input))
      case None => AiUnavailable
      case Some(raw) => Strip(raw)
  }

  // ---------------------------------------------------------------------
  // routing

  /** Which branch of the webhook a turn takes. */
  datatype Branch =
    | Welcome | TakeName | AcceptRole | RepromptRole
    | ShowMenu | ShowInfo | ShowResources | ShowCrisisGuide
    | CrisisAlert | AskAssistant

  /** Onboarding is complete: registered, with a name and a role. */
  predicate Onboarded(p: Profile) {
    p.registered && Truthy(p.name) && Truthy(p.role)
  }

  /** The text is a command: `menu` in any case, or exactly `1`, `2`, `3`. */
  predicate IsCommand(text: string) {
    Lower(text) == "menu" || text == "1" || text == "2" || text == "3"
  }

  /** The branch the webhook's chain of tests selects for (stripped) `text`. */
  function Route(p: Profile, text: string): (b: Branch)
    ensures b in {ShowMenu, ShowInfo, ShowResources, ShowCrisisGuide, CrisisAlert, AskAssistant}
      ==> Onboarded(p)
    ensures b == CrisisAlert <==> Onboarded(p) && !IsCommand(text) && DetectCrisis(text)
    ensures b == AskAssistant <==> Onboarded(p) && !IsCommand(text) && !DetectCrisis(text)
  {
    if !p.registered then Welcome
    else if !Truthy(p.name) then TakeName
    else if !Truthy(p.role) then
      (if Lower(text) in Roles then AcceptRole else RepromptRole)
    else if Lower(text) == "menu" then ShowMenu
    else if text == "1" then ShowInfo
    else if text == "2" then ShowResources
    else if text == "3" then ShowCrisisGuide
    else if DetectCrisis(text) then CrisisAlert
    else AskAssistant
  }

  /** The new profile and the one reply of a turn. */
  datatype Outcome = Outcome(profile: Profile, reply: string)

  /** One turn on the sender's profile, for the stripped text `text`. */
  function Step(p: Profile, text: string, apiKey: Option<string>, ask: Assistant): (o: Outcome)
    // first contact: only registered is set, and the welcome is sent
    ensures !p.registered ==> o == Outcome(p.(registered := true), WelcomeReply)
    // no name yet: the text becomes the name
    ensures p.registered && !Truthy(p.name) ==>
      o == Outcome(p.(name := Some(text)), RolePrompt(text))
    // no role yet: set, lower-cased, exactly when it is one of the roles
    ensures p.registered && Truthy(p.name) && !Truthy(p.role) ==>
      && (Lower(text) in Roles ==> o == Outcome(p.(role := Some(Lower(text))), RegisteredReply))
      && (Lower(text) !in Roles ==> o == Outcome(p, RoleRetryReply))
    // onboarding complete: the profile is not touched
    ensures Onboarded(p) ==> o.profile == p
    // nothing is ever undone
    ensures o.profile.registered
    ensures Truthy(p.name) ==> o.profile.name == p.name
    ensures Truthy(p.role) ==> o.profile.role == p.role
    // only the onboarding fields can change
    ensures o.profile.phone == p.phone && o.profile.pendingAction == p.pendingAction
    ensures o.profile.tempReminderText == p.tempReminderText
    ensures o.profile.preferredLanguage == p.preferredLanguage
  {
    match Route(p, text)
    case Welcome => Outcome(p.(registered := true), WelcomeReply)
    case TakeName => Outcome(p.(name := Some(text)), RolePrompt(text))
    case AcceptRole => Outcome(p.(role := Some(Lower(text))), RegisteredReply)
    case RepromptRole => Outcome(p, RoleRetryReply)
    case ShowMenu => Outcome(p, MenuReply)
    case ShowInfo => Outcome(p, InfoReply)
    case ShowResources => Outcome(p, ResourcesReply)
    case ShowCrisisGuide => Outcome(p, CrisisGuideReply)
    case CrisisAlert => Outcome(p, CrisisDetectedReply)
    case AskAssistant => Outcome(p, FallbackReply(apiKey, text, ask))
  }

  /** The stored role is always one of the three roles, in lower case. */
  lemma StepStoresKnownRole(p: Profile, text: string, apiKey: Option<string>, ask: Assistant)
    requires Truthy(p.role) ==> p.role.value in Roles
    ensures var q := Step(p, text, apiKey, ask).profile;
      Truthy(q.role) ==> q.role.value in Roles
  {
  }

  /** Once onboarded, a command is answered first, as a command, even
      when it mentions a crisis keyword: `menu` in any case, then exactly
      `1`, `2` or `3`. */
  lemma OnboardedCommandReplies(p: Profile, text: string, apiKey: Option<string>, ask: Assistant)
    requires Onboarded(p)
    ensures var r := Step(p, text, apiKey, ask).reply;
      && (Lower(text) == "menu" ==> r == MenuReply)
      && (Lower(text) != "menu" && text == "1" ==> r == InfoReply)
      && (Lower(text) != "menu" && text == "2" ==> r == ResourcesReply)
      && (Lower(text) != "menu" && text == "3" ==> r == CrisisGuideReply)
  {
    var b := Route(p, text);
    if Lower(text) == "menu" {
      assert b == ShowMenu;
    } else if text == "1" {
      assert b == ShowInfo;
    } else if text == "2" {
      assert b == ShowResources;
    } else if text == "3" {
      assert b == ShowCrisisGuide;
    }
  }

  /** Once onboarded, any other text is scanned for a crisis keyword and
      answered with the crisis alert if one occurs, else by the assistant. */
  lemma OnboardedScanReplies(p: Profile, text: string, apiKey: Option<string>, ask: Assistant)
    requires Onboarded(p) && !IsCommand(text)
    ensures DetectCrisis(text) ==> Step(p, text, apiKey, ask).reply == CrisisDetectedReply
    ensures !DetectCrisis(text) ==> Step(p, text, apiKey, ask).reply == FallbackReply(apiKey, text, ask)
  {
    if DetectCrisis(text) {
      assert Route(p, text) == CrisisAlert;
    } else {
      assert Route(p, text) == AskAssistant;
    }
  }

  // ---------------------------------------------------------------------
  // the request

  /** An incoming request: a POST with its optional `Body` and `From`
      form fields, or anything else. */
  datatype Request = Post(body: Option<string>, from: Option<string>) | NotPost

  /** A TwiML reply carrying message bodies, or the plain text "OK". */
  datatype Response = Twiml(bodies: seq<string>) | PlainOk

  datatype TurnResult = TurnResult(store: ProfileStore, response: Response)

  /** `request.POST.get("From", "").replace("whatsapp:", "")`. */
  function Sender(from: Option<string>): string {
    RemoveAll(from.GetOr(""), "whatsapp:")
  }

  /** The channel prefix is dropped from a WhatsApp address. */
  lemma SenderOfWhatsAppAddress(phone: string)
    requires !Contains(phone, "whatsapp:")
    ensures Sender(Some("whatsapp:" + phone)) == phone
  {
    RemoveAllPrefix("whatsapp:", phone);
  }

  /** `request.POST.get("Body", "").strip()`. */
  function IncomingText(body: Option<string>): string {
    Strip(body.GetOr(""))
  }

  /** `user.save()`: writes one row and no other; saving a row unchanged
      leaves the table as it was. */
  function Save(store: ProfileStore, phone: string, p: Profile): (s: ProfileStore)
    ensures s.Keys == store.Keys + {phone}
    ensures phone in s && s[phone] == p
    ensures forall k :: k in store && k != phone ==> s[k] == store[k]
    ensures phone in store && store[phone] == p ==> s == store
  {
    store[phone := p]
  }

  /** `whatsapp_webhook(request)`: the sender's profile is fetched or
      created, stepped once, and saved; the reply is one TwiML body. */
  function Webhook(req: Request, store: ProfileStore, apiKey: Option<string>, ask: Assistant): (r: TurnResult)
    ensures req.NotPost? ==> r == TurnResult(store, PlainOk)
    ensures req.Post? ==> r.response.Twiml? && |r.response.bodies| == 1
    // only the sender's row is written; every other row is untouched
    ensures req.Post? ==>
      && r.store.Keys == store.Keys + {Sender(req.from)}
      && forall k :: k in store && k != Sender(req.from) ==> r.store[k] == store[k]
    // the sender's row becomes the stepped profile, and its reply is the body
    ensures req.Post? ==>
      var o := Step(GetOrNew(store, Sender(req.from)), IncomingText(req.body), apiKey, ask);
      r.store[Sender(req.from)] == o.profile && r.response.bodies == [o.reply]
    // an onboarded sender's turn leaves the whole table as it was
    ensures req.Post? && Sender(req.from) in store && Onboarded(store[Sender(req.from)]) ==>
      r.store == store
  {
    match req
    case NotPost => TurnResult(store, PlainOk)
    case Post(body, from) =>
      var phone := Sender(from);
      var o := Step(GetOrNew(store, phone), IncomingText(body), apiKey, ask);
      TurnResult(Save(store, phone, o.profile), Twiml([o.reply]))
  }

  /** A turn keeps every row stored under its own phone number. */
  lemma WebhookKeepsKeyedByPhone(req: Request, store: ProfileStore, apiKey: Option<string>, ask: Assistant)
    requires KeyedByPhone(store)
    ensures KeyedByPhone(Webhook(req, store, apiKey, ask).store)
  {
  }

  /** A number the table does not know is welcomed, whatever it sends:
      the created row is not registered, so the gate's first test fires. */
  lemma FirstContactWelcomed(phone: string, text: string)
    ensures Route(NewProfile(phone), text) == Welcome
  {
  }

  /** Three turns from an unknown number register it: whatever the first
      message says, it is answered with the welcome; the second gives the
      name and the third the role. */
  lemma OnboardingDialogue(phone: string, first: string, name: string, role: string,
                           apiKey: Option<string>, ask: Assistant)
    requires name != ""
    requires Lower(role) in Roles
    ensures var o1 := Step(NewProfile(phone), first, apiKey, ask);
      var o2 := Step(o1.profile, name, apiKey, ask);
      var o3 := Step(o2.profile, role, apiKey, ask);
      && o1.reply == WelcomeReply
      && o2.reply == RolePrompt(name)
      && o3.reply == RegisteredReply
      && Onboarded(o3.profile)
      && o3.profile == NewProfile(phone).(registered := true, name := Some(name), role := Some(Lower(role)))
  {
  }
}

=== FILE: wrappers.dfy ===
/** Optional values, standing for Python's `None`-or-value fields and returns. */
module Wrappers {

  datatype Option<+T> = None | Some(value: T) {

    /** Returns the value held in Some, or `default` for None. */
    function GetOr(default: T): (r: T)
      ensures Some? ==> r == value
      ensures None? ==> r == default
    {
      match this
      case Some(v) => v
      case None => default
    }
  }
}
